=== FILE: README.md ===
# Day planner state machine, in Dafny

A model of the terminal day planner's core (`main.go`): a day cut into 48
half-hour slots, a six-slot window that follows a cursor over them, the
loading of stored task rows into the slots, and the `Update` transition
that handles key presses in `normalMode` and `taskCreationMode` and the
once-a-minute tick.

The model is functional. `Scheduler.Model` mirrors the `model` record
(without the store handle and the banner timestamp), and `Scheduler.Update`
maps a model, a message (`KeyMsg(key)` or `TickMsg`) and an `Env` to a
`Step`: the next model, the store calls made in order, and whether the
program quits. The outside world enters only through `Env`:

- the clock reading `now`, an abstract day number plus hour and minute;
- the store's answer to a save (`Pass` or `Fail(error)`);
- the store's answer to a listing of the current date (`Ok(rows)` or `Err(error)`);
- `typed`, the text the form's active input holds after the text-input
  widget has handled a key forwarded to it.

Instants are minutes since midnight of day 0, and a day has 1440 minutes.
`strconv.Atoi` is modelled for a 64-bit `int`: an optional sign, then at
least one ASCII digit, with a value in the `int` range.

Modules: `Results` (Option/Result/Outcome), `Slots` (slot index, grid,
loading), `Viewports` (window following and recentring), `Decimal` (Atoi,
duration rule), `Scheduler` (model and transitions), `Properties`
(per-key properties, the invariant, start-up).

The "T" handler (main.go:287-308) repeats `jumpToCurrentTime`
(main.go:189-211) statement for statement, and nothing in `main.go` calls
`jumpToCurrentTime`. Both are modelled once, by `Scheduler.JumpToCurrentTime`.

The model follows `main.go` as written:

- `main.go` has only two modes, `normalMode` and `taskCreationMode`. No
  key reaches the store's done-flag update or its deletion.
- The creation form opens on "enter" (main.go:335-340).
- Jump-to-now is bound to "T" (main.go:287).
- In the form, store failures set the form's own error ("Failed to save
  task", "Failed to reload tasks"), and the banner is left alone
  (main.go:379-388).
- "ctrl+c" and "q" quit only in normal mode (main.go:309-310). In the form
  they are forwarded to the active text input like any other key.

## Model

| member | source | states |
|---|---|---|
| Slots.TimeToSlotIndex | main.go:117-120 | the result is in 0..47 and is the half hour whose 30 minutes contain the time of day |
| Slots.SlotIndexMonotone | main.go:117-120 | a later time of day never maps to an earlier slot |
| Slots.GenerateTimeSlots | main.go:123-139 | exactly 48 slots, all empty, and slot i starts on the given date at hour i/2, minute 0 or 30 |
| Slots.SlotStartsMapBack | main.go:123-139 | each generated slot's start time maps back to that slot on that date, and the last slot ends at the next midnight |
| Slots.AppendRow | main.go:226-235 | a row is appended at the end of the slot its index names, every other slot and every start time is unchanged, and an out-of-range row changes nothing |
| Slots.AppendRows | main.go:225-237 | after the loop each slot holds its previous tasks followed by exactly the rows with its index, in input order |
| Slots.ClearTasks | main.go:221-223 | every slot keeps its start time and has no tasks |
| Slots.LoadTasks | main.go:215-240 | a store error is returned with the grid untouched; otherwise the slot count is kept and each slot holds exactly the fetched rows with its index, in fetched order, stamped with the slot's start time |
| Slots.OutOfRangeRowsDropped | main.go:226 | loading rows with out-of-range indices gives the same grid as loading only the in-range rows |
| Viewports.UpdateViewport | main.go:248-270 | for a cursor in the grid and a window of height 1..n whose bounds match its height, the result lies in the grid, shows the cursor and keeps the height; a window that already lies in the grid and shows the cursor is not moved; when the cursor leaves such a window (of height at least 1) below or above it, the window slides by exactly the overshoot, so its bottom or top lands on the cursor and its size is kept |
| Viewports.CentreOn | main.go:196-206 | for a slot in a grid of at least six, the window shows the slot, lies in the grid and covers six slots; away from the edges the slot is exactly three below the top |
| Decimal.Atoi | main.go:366 | an accepted text is non-empty and has at least one digit, all digits after an optional sign (so a lone "+" or "-" is refused), non-negative unless signed "-", and within Go's 64-bit int range; conversely every unsigned, "+"-signed or "-"-signed run of digits whose value fits is accepted with that value (negated for "-"), and a digit run that does not fit is refused |
| Decimal.SignAndLeadingZeros | main.go:366 | a leading "+" and any number of leading zeros are accepted and do not change the value read; a leading "-" negates it |
| Decimal.AtoiFormatInt | main.go:366 | reading the decimal text of any 64-bit int gives that int back |
| Decimal.ParseDuration | main.go:363-371 | an empty field gives 30; otherwise a duration is accepted exactly when Atoi accepts it and it is positive, and then it is Atoi's value |
| Decimal.RejectedDurations | main.go:363-371 | "0", "-5" and "abc" are refused and "45" gives 45 |
| Scheduler.InitialTaskForm | main.go:141-157 | a fresh form has an empty title and duration, the title input active, and no error |
| Scheduler.GoRem | main.go:349 | Go's truncating remainder: non-negative and below the divisor for a non-negative dividend, non-positive and above minus the divisor otherwise; for non-negative operands it is the ordinary remainder |
| Scheduler.GoRemTruncated | main.go:349 | dividend = truncated quotient × divisor + remainder, as Go defines `%`, and negating the dividend negates the remainder |
| Scheduler.Reload | main.go:314-317 | one listing of the current date; the grid becomes what `loadTasks` makes of the answer (kept on failure); on failure the banner names the error, on success it is kept; nothing else changes |
| Scheduler.JumpToCurrentTime | main.go:189-211 | today's date, cursor and now-slot on the clock's slot, a six-slot window in the grid showing the cursor with its height field kept, the grid is today's fresh grid loaded from the one listing of today, the banner names a failed listing and is otherwise kept, mode and form untouched |
| Scheduler.ChangeDay | main.go:311-324 | the date moves by the given number of days, that day is listed once, and only the date, grid and banner can change |
| Scheduler.MoveCursor | main.go:325-334 | the cursor moves by one and stays in the grid, the model is unchanged exactly when the cursor is at the edge it moves towards, and nothing but the cursor and the window ever changes |
| Scheduler.NormalKey | main.go:285-341 | normal mode quits exactly on "q" and "ctrl+c" and then changes nothing; only "T", "left" and "right" call the store; only "enter" opens the form; unnamed keys change nothing |
| Scheduler.Submit | main.go:357-392 | the store is called exactly when the title is non-empty and the duration rule accepts, its first call saves the form at the cursor's slot of the current date, and the form closes exactly when save and reload both succeed |
| Scheduler.Typed | main.go:396-402 | the widget's text goes to the title when input 0 is active and to the duration otherwise; the other input, the active index and the form error are kept |
| Scheduler.CreationKey | main.go:343-402 | no key quits from the form; the form never moves the cursor, selection, window, date or now-slot; only "esc" and "enter" leave it; only "enter" calls the store; any other key puts the widget's text into the active input (title for input 0, duration otherwise) and changes nothing else |
| Scheduler.Update | main.go:404-409 | a tick sets the now-slot from the clock and changes nothing else, with no store call; a transition that quits leaves the model unchanged and calls nothing |
| Properties.UpKeepsCursorInGrid | main.go:325-329 | "up" moves the cursor up by one, is a full no-op at slot 0, keeps the cursor in the grid and on screen, and changes only cursor and window; the window stays put while the new cursor is still on screen and otherwise scrolls up by exactly one slot |
| Properties.DownKeepsCursorInGrid | main.go:330-334 | "down" moves the cursor down by one, is a full no-op at slot 47, keeps the cursor in the grid and on screen, and changes only cursor and window; the window stays put while the new cursor is still on screen and otherwise scrolls down by exactly one slot |
| Properties.DayKeysChangeOnlyTheDay | main.go:311-324 | "left"/"right" move the date by one day and list it; the grid becomes that day's loaded (or, on failure, empty) grid; cursor, window, mode, form and now-slot are unchanged |
| Properties.JumpRecentresWindow | main.go:287-308 | "T" puts the cursor on the now-slot of today with the window at now-3..now+2, clamped to 0..5 or 42..47, always six slots showing the cursor |
| Properties.EnterOpensForm | main.go:335-340 | "enter" in normal mode opens an empty form on the title input with selected = cursor, and nothing else changes |
| Properties.QuitOnlyFromNormalMode | main.go:309-310 | a key quits exactly when it is "q" or "ctrl+c" in normal mode |
| Properties.EscClosesForm | main.go:345-347 | "esc" returns to normal mode with the form error cleared, keeping everything else |
| Properties.TabSwapsInput | main.go:348-356 | "tab" swaps the active input between 0 and 1 and changes nothing else |
| Properties.ForwardedKeyEditsActiveInput | main.go:396-402 | in the form, every key but "esc", "tab" and "enter" (including "q" and "ctrl+c") only replaces the active input's text with the widget's result, calling nothing and not quitting |
| Properties.TypedTaskIsSaved | main.go:335-378 | from start-up, "enter", typing "Standup" and "enter" saves "Standup" at today's now-slot with duration 30 |
| Properties.EmptyTitleRejected | main.go:358-361 | an empty title sets "Title cannot be empty", makes no store call and stays in the form |
| Properties.BadDurationRejected | main.go:364-370 | a present duration that is not a positive integer sets "Invalid duration", makes no store call and stays in the form |
| Properties.StoreReachedOnlyWhenValid | main.go:358-378 | the store is called if and only if the title is non-empty and the duration is empty or a positive integer; the save carries 30 for an empty duration |
| Properties.StoreFailureKeepsForm | main.go:379-388 | a failed save or reload stays in the form with the matching error and leaves the grid unchanged |
| Properties.SubmitSuccess | main.go:384-392 | a good save and reload return to normal mode with a fresh form and the reloaded grid, after exactly a save and a listing |
| Properties.SavedTaskShownAfterReload | main.go:373-392 | if the listing returns the saved row, the cursor's slot shows the task with the saved title and duration, not done |
| Properties.StandupScenario | main.go:363-378 | "Standup" with an empty duration at slot 18 is saved with duration 30 at slot 18 |
| Properties.UpdateKeepsValid | main.go:278-412 | from a valid state every tick and key leads to a valid state (date's grid, cursor in grid and on screen, six-slot window in the grid, form tied to the cursor's slot) |
| Properties.Run | main.go:472-485 | the program's loop: no events leave the model as it is, and once an event quits, later events are not handled |
| Properties.RunKeepsValid | main.go:278-412 | any sequence of events from a valid state ends in a valid state |
| Properties.InitialModelAsWritten | main.go:165-186 | at start-up the cursor, now-slot and selection are the clock's slot and the window is now-3..now+2, unclamped |
| Properties.InitialWindowLeavesGrid | main.go:174-178 | started at 00:00 the start-up window begins at slot -3, so the start-up state is not valid |
| Properties.InitialModel | main.go:159-187 | start-up with the window clamped as jumpToCurrentTime does it is a valid state in normal mode with a fresh form |
| Properties.ReachableStatesValid | main.go:159-412 | every state reached from the corrected start-up state by any events is valid |

## Left out

- Rendering: `View`, `formatTimeSlot` and the styles are presentation only.
- Text inputs: how the widget edits its text (cursor movement, insertion, deletion, character limits), focus, blur and blink are widget behaviour. A key forwarded to the active input (main.go:396-402) sets that input to `Env.typed`, the widget's result. "esc" and "tab" are forwarded too after their own handling; the model leaves the text unchanged for them, because the text input does not edit its value on those keys.
- Clock machinery: `time.Now`, the ticker goroutine and the 3-second banner expiry are wall-clock and concurrency concerns. The clock reading is an input, and the banner's timestamp is not kept.
- Calendar: `AddDate`, `time.Date`, time zones and daylight saving. Dates are day numbers, and every day has 48 slots of 30 minutes.
- Store: SQLite, file paths and SQL (db/db.go) are not part of this model. The store is an oracle that succeeds or fails. The listing's ordering by slot (db/db.go:93) is not relied on: loading keeps whatever order it gets.
- Start-up plumbing: opening the database, `log.Fatalf`, logging a failed first load, and `Init`'s blink command. Bubble Tea commands other than quitting are not modelled.
- Viewports.UpdateViewport: promises nothing for a window whose bounds do not match its height or a cursor outside the grid, because the code then gives no guarantee.

## Findings

| source | as written | input that shows it | evidently intended | confidence | as-written member | corrected member |
|---|---|---|---|---|---|---|
| main.go:174-178 | the start-up window is now-3..now+2 with no clamp to the grid | starting at 00:00 (now-slot 0) gives top = -3, and `View` (main.go:418-419) then reads slot -3; starting after 23:00 gives bottom 48 or 49 | clamp the window as `jumpToCurrentTime` does (main.go:199-206) | high; not executed | Properties.InitialWindowLeavesGrid | Properties.InitialModel |

=== FILE: decimal.dfy ===
/** Decimal integer text, as Go's `strconv.Atoi` reads it on a 64-bit
    platform, and the duration rule of the task form built on it. */
module Decimal {
  import opened Results

  /** Bounds of Go's `int` on a 64-bit platform. */
  const MinInt: int := -0x8000_0000_0000_0000
  const MaxInt: int := 0x7FFF_FFFF_FFFF_FFFF

  /** The duration used when the duration field is left empty. */
  const DefaultDuration: int := 30

  predicate IsDigit(c: char) {
    '0' <= c <= '9'
  }

  predicate AllDigits(s: string) {
    forall k :: 0 <= k < |s| ==> IsDigit(s[k])
  }

  /** The value of a run of decimal digits, most significant first. */
  function DigitsValue(s: string): nat
    requires AllDigits(s)
  {
    if s == [] then 0
    else DigitsValue(s[..|s| - 1]) * 10 + (s[|s| - 1] as int - '0' as int)
  }

  /** `strconv.Atoi`: an optional `+` or `-`, then at least one ASCII digit,
      denoting a value that fits Go's `int`. Anything else is an error
      (`None`). */
  function Atoi(s: string): (r: Option<int>)
    ensures r.Some? ==> |s| > 0 && MinInt <= r.value <= MaxInt
    ensures r.Some? && s[0] != '-' ==> r.value >= 0
    ensures r.Some? ==> AllDigits(if s[0] == '-' || s[0] == '+' then s[1..] else s)
    ensures r.Some? && (s[0] == '-' || s[0] == '+') ==> |s| > 1
    // Completeness: every well-formed text whose value fits is accepted with that value.
    ensures |s| > 0 && AllDigits(s) && DigitsValue(s) <= MaxInt ==> r == Some(DigitsValue(s))
    ensures |s| > 1 && s[0] == '+' && AllDigits(s[1..]) && DigitsValue(s[1..]) <= MaxInt ==>
      r == Some(DigitsValue(s[1..]))
    ensures |s| > 1 && s[0] == '-' && AllDigits(s[1..]) && DigitsValue(s[1..]) <= -MinInt ==>
      r == Some(0 - DigitsValue(s[1..]) as int)
    // Soundness of the range check: a run of digits whose value does not fit is refused.
    ensures |s| > 0 && AllDigits(s) && DigitsValue(s) > MaxInt ==> r == None
    ensures |s| > 1 && s[0] == '+' && AllDigits(s[1..]) && DigitsValue(s[1..]) > MaxInt ==> r == None
    ensures |s| > 1 && s[0] == '-' && AllDigits(s[1..]) && DigitsValue(s[1..]) > -MinInt ==> r == None
  {
    if |s| == 0 then None
    else
      var body := if s[0] == '-' || s[0] == '+' then s[1..] else s;
      if |body| == 0 || !AllDigits(body) then None
      else
        var v: int := if s[0] == '-' then 0 - DigitsValue(body) as int else DigitsValue(body);
        if MinInt <= v <= MaxInt then Some(v) else None
  }

  /** The digits of a natural number, most significant first, without
      leading zeros (the text `strconv.Itoa` produces). */
  function NatDigits(n: nat): (r: string)
    ensures |r| > 0 && AllDigits(r) && DigitsValue(r) == n
    decreases n
  {
    var last := [('0' as int + n % 10) as char];
    if n < 10 then
      assert last[..|last| - 1] == [];
      last
    else
      var front := NatDigits(n / 10);
      var r := front + last;
      assert r[..|r| - 1] == front;
      r
  }

  /** The decimal text of an integer: a `-` before negative values. */
  function FormatInt(n: int): string {
    if n < 0 then "-" + NatDigits(-n) else NatDigits(n)
  }

  /** Reading back the decimal text of any `int` gives the same value. */
  lemma AtoiFormatInt(n: int)
    requires MinInt <= n <= MaxInt
    ensures Atoi(FormatInt(n)) == Some(n)
  {
  }

  predicate AllZeros(s: string) {
    forall k :: 0 <= k < |s| ==> s[k] == '0'
  }

  lemma {:induction false} ZerosValue(z: string)
    requires AllZeros(z)
    ensures AllDigits(z) && DigitsValue(z) == 0
    decreases |z|
  {
    if z != [] {
      ZerosValue(z[..|z| - 1]);
    }
  }

  /** Leading zeros do not change the value of a run of digits. */
  lemma {:induction false} LeadingZerosValue(z: string, d: string)
    requires AllZeros(z) && AllDigits(d)
    ensures AllDigits(z + d) && DigitsValue(z + d) == DigitsValue(d)
    decreases |d|
  {
    if d == [] {
      assert z + d == z;
      ZerosValue(z);
    } else {
      var zd := z + d;
      assert zd[..|zd| - 1] == z + d[..|d| - 1];
      LeadingZerosValue(z, d[..|d| - 1]);
    }
  }

  /** A leading "+" and any number of leading zeros are accepted and do not
      change the value read; a "-" negates it. */
  lemma SignAndLeadingZeros(z: string, k: nat)
    requires AllZeros(z)
    ensures k <= MaxInt ==> Atoi(z + NatDigits(k)) == Some(k)
    ensures k <= MaxInt ==> Atoi("+" + z + NatDigits(k)) == Some(k)
    ensures k <= -MinInt ==> Atoi("-" + z + NatDigits(k)) == Some(0 - k as int)
  {
    var d := z + NatDigits(k);
    LeadingZerosValue(z, NatDigits(k));
    assert ("+" + z + NatDigits(k))[1..] == d;
    assert ("-" + z + NatDigits(k))[1..] == d;
  }

  /** The form's duration rule: an empty field means the default, otherwise
      the text must read as a positive integer. */
  function ParseDuration(s: string): (r: Option<int>)
    ensures r.Some? ==> r.value > 0
    ensures s == [] ==> r == Some(DefaultDuration)
    ensures s != [] ==> (r.Some? <==> Atoi(s).Some? && Atoi(s).value > 0)
    ensures s != [] && r.Some? ==> r == Atoi(s)
  {
    if s == [] then Some(DefaultDuration)
    else
      match Atoi(s)
      case Some(d) => if d <= 0 then None else Some(d)
      case None => None
  }

  /** Durations that are zero, negative or not numbers are refused. */
  lemma RejectedDurations()
    ensures ParseDuration("0") == None
    ensures ParseDuration("-5") == None
    ensures ParseDuration("abc") == None
    ensures ParseDuration("45") == Some(45)
  {
  }
}

=== FILE: properties.dfy ===
/** Properties of the state machine: what each key and the tick change and
    what they leave alone, the invariant every transition keeps, and the
    program's start-up state. */
module Properties {
  import opened Results
  import opened Slots
  import opened Viewports
  import opened Decimal
  import opened Scheduler

  // ---------------------------------------------------------------------
  // Normal mode

  /** "up" moves the cursor one slot up, except at the first slot, where
      it changes nothing at all (window included); the cursor stays in the
      grid and on screen. */
  lemma UpKeepsCursorInGrid(m: Model, env: Env)
    requires Valid(m) && m.mode == NormalMode
    ensures var r := Update(m, KeyMsg(Up), env);
      && r.calls == [] && !r.quit
      && (m.cursor == 0 ==> r.model == m)
      && (m.cursor > 0 ==> r.model.cursor == m.cursor - 1)
      && (m.cursor == 0 || m.cursor - 1 >= m.viewport.top ==> r.model.viewport == m.viewport)
      && (0 < m.cursor && m.cursor - 1 < m.viewport.top ==>
            r.model.viewport == m.viewport.(top := m.viewport.top - 1, bottom := m.viewport.bottom - 1))
      && 0 <= r.model.cursor < SlotsPerDay
      && Spans(r.model.viewport, SlotsPerDay) && Shows(r.model.viewport, r.model.cursor)
      && r.model.(cursor := m.cursor, viewport := m.viewport) == m
  {
  }

  /** "down" mirrors "up": at the last slot it changes nothing. */
  lemma DownKeepsCursorInGrid(m: Model, env: Env)
    requires Valid(m) && m.mode == NormalMode
    ensures var r := Update(m, KeyMsg(Down), env);
      && r.calls == [] && !r.quit
      && (m.cursor == SlotsPerDay - 1 ==> r.model == m)
      && (m.cursor < SlotsPerDay - 1 ==> r.model.cursor == m.cursor + 1)
      && (m.cursor == SlotsPerDay - 1 || m.cursor + 1 <= m.viewport.bottom ==> r.model.viewport == m.viewport)
      && (m.cursor < SlotsPerDay - 1 && m.cursor + 1 > m.viewport.bottom ==>
            r.model.viewport == m.viewport.(top := m.viewport.top + 1, bottom := m.viewport.bottom + 1))
      && 0 <= r.model.cursor < SlotsPerDay
      && Spans(r.model.viewport, SlotsPerDay) && Shows(r.model.viewport, r.model.cursor)
      && r.model.(cursor := m.cursor, viewport := m.viewport) == m
  {
  }

  /** "left" and "right" move one day back or forward, list that day, and
      leave the cursor, window, mode, form and now-slot alone. The grid is
      the new day's grid filled from the listing, or left empty when the
      listing fails, in which case the banner reports it. */
  lemma DayKeysChangeOnlyTheDay(m: Model, env: Env, k: Key)
    requires m.mode == NormalMode && (k == Left || k == Right)
    ensures var r := Update(m, KeyMsg(k), env);
      var date := if k == Left then m.currentDate - 1 else m.currentDate + 1;
      && r.model.currentDate == date
      && r.calls == [GetTasksForDate(date)] && !r.quit
      && r.model.(currentDate := m.currentDate, timeSlots := m.timeSlots, errorMsg := m.errorMsg) == m
      && r.model.timeSlots == LoadTasks(GenerateTimeSlots(date), env.fetched).0
      && (env.fetched.Err? ==> r.model.errorMsg == LoadFailedPrefix + env.fetched.error)
      && (env.fetched.Ok? ==> r.model.errorMsg == m.errorMsg)
  {
  }

  /** "T" goes to today with the cursor on the now-slot; the window has
      three slots above the cursor and two below unless that would leave
      the grid, and in every case shows the cursor and six slots. */
  lemma JumpRecentresWindow(m: Model, env: Env)
    requires m.mode == NormalMode
    ensures var r := Update(m, KeyMsg(Rune('T')), env);
      && r.model.currentDate == env.now.day
      && r.model.cursor == r.model.currentTimeSlot == NowSlot(env)
      && 0 <= r.model.viewport.top && r.model.viewport.bottom <= SlotsPerDay - 1
      && r.model.viewport.bottom - r.model.viewport.top + 1 == WindowHeight
      && Shows(r.model.viewport, r.model.cursor)
      && (3 <= NowSlot(env) <= SlotsPerDay - 3 ==> r.model.viewport.top == NowSlot(env) - 3)
      && (NowSlot(env) < 3 ==> r.model.viewport.top == 0)
      && (NowSlot(env) > SlotsPerDay - 3 ==> r.model.viewport.bottom == SlotsPerDay - 1)
  {
  }

  /** "enter" opens a fresh form on the cursor's slot; nothing else moves. */
  lemma EnterOpensForm(m: Model, env: Env)
    requires m.mode == NormalMode
    ensures var r := Update(m, KeyMsg(Enter), env);
      && r.model.mode == TaskCreationMode
      && r.model.selected == m.cursor
      && r.model.taskForm.activeInput == 0
      && r.model.taskForm.title == [] && r.model.taskForm.duration == [] && r.model.taskForm.err == []
      && r.model.(selected := m.selected, mode := m.mode, taskForm := m.taskForm) == m
      && r.calls == [] && !r.quit
  {
  }

  /** Only "q" and "ctrl+c" in normal mode quit; no key quits from the form. */
  lemma QuitOnlyFromNormalMode(m: Model, k: Key, env: Env)
    ensures Update(m, KeyMsg(k), env).quit <==> m.mode == NormalMode && (k == CtrlC || k == Rune('q'))
  {
  }

  // ---------------------------------------------------------------------
  // Creation mode

  /** "esc" closes the form and clears its error; the typed text and the
      rest of the state are kept. */
  lemma EscClosesForm(m: Model, env: Env)
    requires m.mode == TaskCreationMode
    ensures var r := Update(m, KeyMsg(Esc), env);
      && r.model.mode == NormalMode
      && r.model.taskForm.err == []
      && r.model.(mode := m.mode, taskForm := m.taskForm) == m
      && r.model.taskForm.(err := m.taskForm.err) == m.taskForm
      && r.calls == [] && !r.quit
  {
  }

  /** "tab" swaps the active input between the title (0) and the duration (1). */
  lemma TabSwapsInput(m: Model, env: Env)
    requires m.mode == TaskCreationMode && 0 <= m.taskForm.activeInput <= 1
    ensures var r := Update(m, KeyMsg(Tab), env);
      && r.model.taskForm.activeInput == 1 - m.taskForm.activeInput
      && r.model.(taskForm := m.taskForm) == m
      && r.model.taskForm.(activeInput := m.taskForm.activeInput) == m.taskForm
      && r.calls == [] && !r.quit
  {
  }

  /** Any other key, "q" and "ctrl+c" included, goes to the active input:
      its text becomes what the widget made of it, and nothing else in the
      model changes. */
  lemma ForwardedKeyEditsActiveInput(m: Model, k: Key, env: Env)
    requires m.mode == TaskCreationMode && 0 <= m.taskForm.activeInput <= 1
    requires k != Esc && k != Tab && k != Enter
    ensures var r := Update(m, KeyMsg(k), env);
      && (m.taskForm.activeInput == 0 ==> r.model.taskForm.title == env.typed)
      && (m.taskForm.activeInput == 1 ==> r.model.taskForm.duration == env.typed)
      && r.model.(taskForm := m.taskForm) == m
      && r.model.taskForm.(title := m.taskForm.title, duration := m.taskForm.duration) == m.taskForm
      && r.calls == [] && !r.quit
  {
  }

  /** From start-up, "enter", typing a title and "enter" again saves that
      title at the now-slot of today with the default duration. */
  lemma TypedTaskIsSaved(start: Env, typing: Env, submit: Env)
    requires typing.typed == "Standup" && submit.saved.Pass?
    ensures var m0 := InitialModel(start);
      var m1 := Update(m0, KeyMsg(Enter), start).model;
      var m2 := Update(m1, KeyMsg(Rune('S')), typing).model;
      var r := Update(m2, KeyMsg(Enter), submit);
      r.calls != [] && r.calls[0] == SaveTask(start.now.day, NowSlot(start), "Standup", DefaultDuration)
  {
  }

  /** Submitting with an empty title reports it, calls nothing and keeps
      the form open. */
  lemma EmptyTitleRejected(m: Model, env: Env)
    requires m.mode == TaskCreationMode && m.taskForm.title == []
    ensures var r := Update(m, KeyMsg(Enter), env);
      && r.model == m.(taskForm := m.taskForm.(err := TitleEmptyError))
      && r.calls == [] && !r.quit
  {
  }

  /** A duration that is present but not a positive integer is reported,
      calls nothing and keeps the form open. */
  lemma BadDurationRejected(m: Model, env: Env)
    requires m.mode == TaskCreationMode && m.taskForm.title != []
    requires m.taskForm.duration != [] && (Atoi(m.taskForm.duration).None? || Atoi(m.taskForm.duration).value <= 0)
    ensures var r := Update(m, KeyMsg(Enter), env);
      && r.model == m.(taskForm := m.taskForm.(err := InvalidDurationError))
      && r.calls == [] && !r.quit
  {
  }

  /** The store is reached only by a valid form, and its first call saves
      the form's title and duration (30 when left empty) at the cursor's
      slot of the current date. */
  lemma StoreReachedOnlyWhenValid(m: Model, env: Env)
    requires m.mode == TaskCreationMode
    ensures var r := Update(m, KeyMsg(Enter), env);
      && (r.calls != [] <==> m.taskForm.title != [] && (m.taskForm.duration == [] ||
                                                         (Atoi(m.taskForm.duration).Some? && Atoi(m.taskForm.duration).value > 0)))
      && (r.calls != [] && m.taskForm.duration == [] ==>
            r.calls[0] == SaveTask(m.currentDate, m.cursor, m.taskForm.title, DefaultDuration))
      && (r.calls != [] && m.taskForm.duration != [] ==>
            r.calls[0] == SaveTask(m.currentDate, m.cursor, m.taskForm.title, Atoi(m.taskForm.duration).value))
  {
  }

  /** A failed save, or a failed reload after a good save, keeps the form
      open with an error and leaves the grid as it was. */
  lemma StoreFailureKeepsForm(m: Model, env: Env)
    requires m.mode == TaskCreationMode && m.taskForm.title != []
    requires ParseDuration(m.taskForm.duration).Some?
    requires env.saved.Fail? || env.fetched.Err?
    ensures var r := Update(m, KeyMsg(Enter), env);
      && r.model.mode == TaskCreationMode
      && r.model.timeSlots == m.timeSlots
      && r.model.taskForm.err == (if env.saved.Fail? then SaveFailedError else ReloadFailedError)
      && r.model.(taskForm := m.taskForm) == m
      && |r.calls| == (if env.saved.Fail? then 1 else 2)
  {
  }

  /** A good save followed by a good reload closes the form with a fresh
      one and shows the reloaded grid; the cursor and window stay. */
  lemma SubmitSuccess(m: Model, env: Env)
    requires m.mode == TaskCreationMode && m.taskForm.title != []
    requires ParseDuration(m.taskForm.duration).Some?
    requires env.saved.Pass? && env.fetched.Ok?
    ensures var r := Update(m, KeyMsg(Enter), env);
      && r.model.mode == NormalMode
      && r.model.taskForm == InitialTaskForm()
      && r.model.timeSlots == LoadTasks(m.timeSlots, env.fetched).0
      && r.model.(timeSlots := m.timeSlots, mode := m.mode, taskForm := m.taskForm) == m
      && r.calls == [SaveTask(m.currentDate, m.cursor, m.taskForm.title, ParseDuration(m.taskForm.duration).value),
                     GetTasksForDate(m.currentDate)]
  {
  }

  /** If the listing after a save returns the saved row, the cursor's
      slot shows it as a task that is not done, with the saved title and
      duration. */
  lemma SavedTaskShownAfterReload(m: Model, env: Env, k: int)
    requires Valid(m) && m.mode == TaskCreationMode && m.taskForm.title != []
    requires ParseDuration(m.taskForm.duration).Some?
    requires env.saved.Pass? && env.fetched.Ok?
    requires 0 <= k < |env.fetched.value|
    requires env.fetched.value[k] == Row(env.fetched.value[k].id, m.cursor, m.taskForm.title,
                                         ParseDuration(m.taskForm.duration).value, false)
    ensures var r := Update(m, KeyMsg(Enter), env);
      Task(m.timeSlots[m.cursor].startTime, ParseDuration(m.taskForm.duration).value, m.taskForm.title, false)
        in r.model.timeSlots[m.cursor].tasks
  {
    TasksForContains(env.fetched.value, k, m.cursor, m.timeSlots[m.cursor].startTime);
  }

  lemma {:induction false} TasksForContains(rows: seq<Row>, k: int, i: int, start: Instant)
    requires 0 <= k < |rows| && rows[k].timeSlot == i
    ensures ToTask(rows[k], start) in TasksFor(rows, i, start)
    decreases k
  {
    if k > 0 {
      TasksForContains(rows[1..], k - 1, i, start);
    }
  }

  /** The scenario of a stand-up at 9:00: slot 18, empty duration. */
  lemma StandupScenario(m: Model, env: Env)
    requires m.mode == TaskCreationMode && m.cursor == 18
    requires m.taskForm.title == "Standup" && m.taskForm.duration == []
    ensures Update(m, KeyMsg(Enter), env).calls[0] == SaveTask(m.currentDate, 18, "Standup", 30)
  {
  }

  // ---------------------------------------------------------------------
  // The invariant

  lemma LoadKeepsGrid(slots: seq<TimeSlot>, date: int, fetched: Result<seq<Row>>)
    requires GridOf(slots, date)
    ensures GridOf(LoadTasks(slots, fetched).0, date)
  {
  }

  lemma ReloadKeepsValid(m: Model, env: Env)
    requires Valid(m)
    ensures Valid(Reload(m, env).model)
  {
    LoadKeepsGrid(m.timeSlots, m.currentDate, env.fetched);
  }

  lemma NormalKeyKeepsValid(m: Model, k: Key, env: Env)
    requires Valid(m) && m.mode == NormalMode
    ensures Valid(NormalKey(m, k, env).model)
  {
    if k == Rune('T') {
      var slot := NowSlot(env);
      var m1 := m.(currentDate := env.now.day, currentTimeSlot := slot, cursor := slot,
                   timeSlots := GenerateTimeSlots(env.now.day));
      ReloadKeepsValid(m1.(viewport := CentreOn(slot, m1.viewport, |m1.timeSlots|)), env);
    } else if k == Left || k == Right {
      var date := if k == Left then m.currentDate - 1 else m.currentDate + 1;
      ReloadKeepsValid(m.(currentDate := date, timeSlots := GenerateTimeSlots(date)), env);
    }
  }

  lemma CreationKeyKeepsValid(m: Model, k: Key, env: Env)
    requires Valid(m) && m.mode == TaskCreationMode
    ensures Valid(CreationKey(m, k, env).model)
  {
    if k == Enter {
      LoadKeepsGrid(m.timeSlots, m.currentDate, env.fetched);
    }
  }

  /** Every transition from a valid state reaches a valid state: the grid
      is the current date's, the cursor is in the grid and on screen, the
      six-slot window lies in the grid, an open form belongs to the
      cursor's slot, and the active input is 0 or 1. */
  lemma UpdateKeepsValid(m: Model, msg: Msg, env: Env)
    requires Valid(m)
    ensures Valid(Update(m, msg, env).model)
  {
    match msg
    case TickMsg =>
    case KeyMsg(k) =>
      if m.mode == NormalMode {
        NormalKeyKeepsValid(m, k, env);
      } else {
        CreationKeyKeepsValid(m, k, env);
      }
  }

  /** The program's loop over a sequence of events, ending at a quit. */
  function Run(m: Model, events: seq<(Msg, Env)>): (r: Model)
    ensures events == [] ==> r == m
    // Events after a quit are never handled: a first event that quits ends the run where it began.
    ensures events != [] && Update(m, events[0].0, events[0].1).quit ==> r == m
    decreases |events|
  {
    if events == [] then m
    else
      var s := Update(m, events[0].0, events[0].1);
      if s.quit then s.model else Run(s.model, events[1..])
  }

  lemma {:induction false} RunKeepsValid(m: Model, events: seq<(Msg, Env)>)
    requires Valid(m)
    ensures Valid(Run(m, events))
    decreases |events|
  {
    if events != [] {
      UpdateKeepsValid(m, events[0].0, events[0].1);
      var s := Update(m, events[0].0, events[0].1);
      if !s.quit {
        RunKeepsValid(s.model, events[1..]);
      }
    }
  }

  // ---------------------------------------------------------------------
  // Start-up

  /** `initialModel` as written: the window is put at three slots above
      and two below the now-slot without being pulled back into the grid.
      A failed first listing is only logged. */
  function InitialModelAsWritten(env: Env): (r: Model)
    ensures r.cursor == r.currentTimeSlot == r.selected == NowSlot(env)
    ensures r.viewport.top == NowSlot(env) - 3 && r.viewport.bottom == NowSlot(env) + 2
  {
    var slot := NowSlot(env);
    var slots := GenerateTimeSlots(env.now.day);
    Model(env.now.day, slot, LoadTasks(slots, env.fetched).0, slot, slot,
          Viewport(slot - 3, slot + 2, WindowHeight), NormalMode, InitialTaskForm(), "")
  }

  /** Started before 1:30 the window begins above slot 0, so the first
      screen would read slot -3 of the grid. */
  lemma InitialWindowLeavesGrid(env: Env)
    requires env.now.hour == 0 && env.now.minute == 0
    ensures InitialModelAsWritten(env).viewport.top == -3
    ensures !Valid(InitialModelAsWritten(env))
  {
  }

  /** `initialModel` with its window recentred the way "T" does it. */
  function InitialModel(env: Env): (r: Model)
    ensures r.cursor == r.currentTimeSlot == r.selected == NowSlot(env)
    ensures r.mode == NormalMode && r.taskForm == InitialTaskForm()
    ensures Valid(r)
  {
    var slot := NowSlot(env);
    var slots := GenerateTimeSlots(env.now.day);
    Model(env.now.day, slot, LoadTasks(slots, env.fetched).0, slot, slot,
          CentreOn(slot, Viewport(slot - 3, slot + 2, WindowHeight), SlotsPerDay),
          NormalMode, InitialTaskForm(), "")
  }

  /** Every state the corrected program reaches is valid. */
  lemma ReachableStatesValid(env: Env, events: seq<(Msg, Env)>)
    ensures Valid(Run(InitialModel(env), events))
  {
    RunKeepsValid(InitialModel(env), events);
  }
}

=== FILE: results.dfy ===
/** Failure-carrying values used where the program returns a Go `error`
    alongside (or instead of) a value. */
module Results {

  /** A value that may be absent. */
  datatype Option<+T> = None | Some(value: T)

  /** A value, or the text of the `error` that replaced it. */
  datatype Result<+T> = Ok(value: T) | Err(error: string)

  /** The outcome of a call that returns only an `error`. */
  datatype Outcome = Pass | Fail(error: string)
}

=== FILE: scheduler.dfy ===
/** The interactive state machine of main.go: the `model` record and its
    `Update` on key presses and clock ticks, with the clock, the store and
    the text-input widgets turned into inputs of the transition. */
module Scheduler {
  import opened Results
  import opened Slots
  import opened Viewports
  import opened Decimal

  /** The number of slots the window shows. */
  const WindowHeight: int := 6

  const TitleEmptyError: string := "Title cannot be empty"
  const InvalidDurationError: string := "Invalid duration"
  const SaveFailedError: string := "Failed to save task"
  const ReloadFailedError: string := "Failed to reload tasks"
  const LoadFailedPrefix: string := "Failed to load tasks: "

  datatype Mode = NormalMode | TaskCreationMode

  /** The task-creation form. `title` and `duration` are the current
      contents of the two text inputs; `activeInput` is 0 for the title
      and 1 for the duration. */
  datatype TaskForm = TaskForm(title: string, duration: string, activeInput: int, err: string)

  /** The session state. The store handle and the error banner's
      timestamp are not modelled. */
  datatype Model = Model(
    currentDate: int,
    currentTimeSlot: int,
    timeSlots: seq<TimeSlot>,
    cursor: int,
    selected: int,
    viewport: Viewport,
    mode: Mode,
    taskForm: TaskForm,
    errorMsg: string)

  /** Key presses, named as the terminal library names them: `Rune('T')`
      is "T", `CtrlC` is "ctrl+c"; `Other` stands for every key that is
      neither a printable character nor one the program names
      (backspace, delete, home, ...). */
  datatype Key = Up | Down | Left | Right | Enter | Esc | Tab | CtrlC | Rune(c: char) | Other

  datatype Msg = KeyMsg(key: Key) | TickMsg

  /** What the outside world answers during one transition: the clock
      reading, the store's answer to a save, its answer to a listing of
      the current date, and the text the form's active input holds after
      the text-input widget has handled a key forwarded to it. At most one
      save and one listing happen in a transition. */
  datatype Env = Env(now: Clock, saved: Outcome, fetched: Result<seq<Row>>, typed: string)

  /** A call into the store, recorded in the order it is made. */
  datatype Call = SaveTask(date: int, timeSlot: int, title: string, duration: int) | GetTasksForDate(date: int)

  /** The state after a transition, the store calls it made, and whether
      it asked the program to quit. */
  datatype Step = Step(model: Model, calls: seq<Call>, quit: bool)

  /** A fresh form: both inputs empty, the title input active, no error. */
  function InitialTaskForm(): (r: TaskForm)
    ensures r.title == [] && r.duration == [] && r.activeInput == 0 && r.err == []
  {
    TaskForm("", "", 0, "")
  }

  /** The slot the clock is in. */
  function NowSlot(env: Env): int {
    TimeToSlotIndex(env.now.hour, env.now.minute)
  }

  /** The form after the widget of its active input has handled a key:
      the active input (any index other than 0 means the duration) holds
      `text`; the other input, the index and the error are untouched. */
  function Typed(f: TaskForm, text: string): (r: TaskForm)
    ensures r.activeInput == f.activeInput && r.err == f.err
    ensures f.activeInput == 0 ==> r.title == text && r.duration == f.duration
    ensures f.activeInput != 0 ==> r.duration == text && r.title == f.title
  {
    if f.activeInput == 0 then f.(title := text) else f.(duration := text)
  }

  /** Go's `%`, which truncates towards zero: the result has the sign of
      the dividend. */
  function GoRem(a: int, b: int): (r: int)
    requires b != 0
    ensures a >= 0 ==> 0 <= r < if b > 0 then b else -b
    ensures a < 0 ==> -(if b > 0 then b else -b) < r <= 0
    ensures a >= 0 && b > 0 ==> r == a % b
  {
    var m := if b > 0 then b else -b;
    if a >= 0 then a % m else -((-a) % m)
  }

  /** Go's `/` on integers, which truncates towards zero. */
  function GoQuo(a: int, b: int): int
    requires b != 0
  {
    var q := (if a >= 0 then a else -a) / (if b > 0 then b else -b);
    if (a >= 0) == (b > 0) then q else -q
  }

  /** `GoRem` is the remainder that goes with Go's truncating quotient
      (`a == (a / b) * b + a % b` in Go), and it is odd in the dividend. */
  lemma GoRemTruncated(a: int, b: int)
    requires b != 0
    ensures a == GoQuo(a, b) * b + GoRem(a, b)
    ensures GoRem(-a, b) == -GoRem(a, b)
  {
    var m := if b > 0 then b else -b;
    var x := if a >= 0 then a else -a;
    assert x == (x / m) * m + x % m;
    if a == 0 {
      assert GoRem(-a, b) == 0;
    }
  }

  /** `loadTasks` for the current date followed by the key handlers' error
      banner: a failed listing leaves the grid as it was and sets
      `errorMsg`; a successful one replaces the grid and keeps `errorMsg`. */
  function Reload(m: Model, env: Env): (r: Step)
    ensures r.calls == [GetTasksForDate(m.currentDate)] && !r.quit
    ensures r.model.(timeSlots := m.timeSlots, errorMsg := m.errorMsg) == m
    ensures env.fetched.Err? ==> r.model.timeSlots == m.timeSlots && r.model.errorMsg == LoadFailedPrefix + env.fetched.error
    ensures env.fetched.Ok? ==> r.model.errorMsg == m.errorMsg && |r.model.timeSlots| == |m.timeSlots|
    ensures r.model.timeSlots == LoadTasks(m.timeSlots, env.fetched).0
  {
    var loaded := LoadTasks(m.timeSlots, env.fetched);
    var m1 := m.(timeSlots := loaded.0);
    var m2 := if loaded.1.Some? then m1.(errorMsg := LoadFailedPrefix + loaded.1.value) else m1;
    Step(m2, [GetTasksForDate(m.currentDate)], false)
  }

  /** `jumpToCurrentTime`, which the "T" key repeats line for line: go to
      today, put the cursor on the now-slot, recentre the window on it and
      reload. The window then shows the cursor, lies in the grid and
      covers six slots; the mode and the form are untouched. */
  function JumpToCurrentTime(m: Model, env: Env): (r: Step)
    ensures r.model.currentDate == env.now.day
    ensures r.model.cursor == r.model.currentTimeSlot == NowSlot(env)
    ensures |r.model.timeSlots| == SlotsPerDay
    ensures 0 <= r.model.viewport.top && r.model.viewport.bottom <= SlotsPerDay - 1
    ensures r.model.viewport.bottom - r.model.viewport.top + 1 == WindowHeight
    ensures Shows(r.model.viewport, r.model.cursor)
    ensures r.model.mode == m.mode && r.model.taskForm == m.taskForm && r.model.selected == m.selected
    ensures r.model.viewport.height == m.viewport.height
    ensures r.model.timeSlots == LoadTasks(GenerateTimeSlots(env.now.day), env.fetched).0
    ensures env.fetched.Err? ==> r.model.errorMsg == LoadFailedPrefix + env.fetched.error
    ensures env.fetched.Ok? ==> r.model.errorMsg == m.errorMsg
    ensures r.calls == [GetTasksForDate(env.now.day)] && !r.quit
  {
    var slot := NowSlot(env);
    var m1 := m.(currentDate := env.now.day, currentTimeSlot := slot, cursor := slot,
                 timeSlots := GenerateTimeSlots(env.now.day));
    Reload(m1.(viewport := CentreOn(slot, m1.viewport, |m1.timeSlots|)), env)
  }

  /** "left" and "right": move to the neighbouring day, rebuild its empty
      grid and reload it. */
  function ChangeDay(m: Model, delta: int, env: Env): (r: Step)
    ensures r.model.currentDate == m.currentDate + delta
    ensures r.calls == [GetTasksForDate(m.currentDate + delta)] && !r.quit
    ensures r.model.(currentDate := m.currentDate, timeSlots := m.timeSlots, errorMsg := m.errorMsg) == m
  {
    var date := m.currentDate + delta;
    Reload(m.(currentDate := date, timeSlots := GenerateTimeSlots(date)), env)
  }

  /** Moves the cursor by one slot when that stays inside the grid, and
      lets the window follow it. */
  function MoveCursor(m: Model, delta: int): (r: Model)
    requires delta == -1 || delta == 1
    ensures 0 <= m.cursor < |m.timeSlots| ==> 0 <= r.cursor < |m.timeSlots|
    ensures r.cursor == m.cursor + delta || r == m
    ensures r == m <==> (if delta < 0 then m.cursor <= 0 else m.cursor >= |m.timeSlots| - 1)
    ensures r.(cursor := m.cursor, viewport := m.viewport) == m
  {
    var c := m.cursor + delta;
    if (delta < 0 && m.cursor > 0) || (delta > 0 && m.cursor < |m.timeSlots| - 1) then
      m.(cursor := c, viewport := UpdateViewport(c, m.viewport, |m.timeSlots|))
    else m
  }

  /** Key handling in `normalMode`. */
  function NormalKey(m: Model, k: Key, env: Env): (r: Step)
    requires m.mode == NormalMode
    ensures r.quit <==> k == CtrlC || k == Rune('q')
    ensures r.quit ==> r.model == m && r.calls == []
    ensures r.calls != [] <==> k == Rune('T') || k == Left || k == Right
    ensures r.model.mode == TaskCreationMode <==> k == Enter
    ensures k !in {Rune('T'), CtrlC, Rune('q'), Left, Right, Up, Down, Enter} ==> r == Step(m, [], false)
  {
    if k == Rune('T') then JumpToCurrentTime(m, env)
    else if k == CtrlC || k == Rune('q') then Step(m, [], true)
    else if k == Left then ChangeDay(m, -1, env)
    else if k == Right then ChangeDay(m, 1, env)
    else if k == Up then Step(MoveCursor(m, -1), [], false)
    else if k == Down then Step(MoveCursor(m, 1), [], false)
    else if k == Enter then
      Step(m.(selected := m.cursor, mode := TaskCreationMode, taskForm := InitialTaskForm()), [], false)
    else Step(m, [], false)
  }

  /** "enter" in the form: validate, save, reload. Validation failures
      make no store call; a store failure keeps the form open with an
      error; success closes the form with a fresh one. */
  function Submit(m: Model, env: Env): (r: Step)
    requires m.mode == TaskCreationMode
    ensures !r.quit
    ensures r.calls == [] <==> m.taskForm.title == [] || ParseDuration(m.taskForm.duration).None?
    ensures r.calls != [] ==> r.calls[0] == SaveTask(m.currentDate, m.cursor, m.taskForm.title, ParseDuration(m.taskForm.duration).value)
    ensures r.model.mode == NormalMode <==> r.calls != [] && env.saved.Pass? && env.fetched.Ok?
  {
    var form := m.taskForm;
    if form.title == [] then
      Step(m.(taskForm := form.(err := TitleEmptyError)), [], false)
    else
      match ParseDuration(form.duration)
      case None => Step(m.(taskForm := form.(err := InvalidDurationError)), [], false)
      case Some(duration) =>
        var save := SaveTask(m.currentDate, m.cursor, form.title, duration);
        if env.saved.Fail? then
          Step(m.(taskForm := form.(err := SaveFailedError)), [save], false)
        else
          var loaded := LoadTasks(m.timeSlots, env.fetched);
          var calls := [save, GetTasksForDate(m.currentDate)];
          if loaded.1.Some? then
            Step(m.(taskForm := form.(err := ReloadFailedError)), calls, false)
          else
            Step(m.(timeSlots := loaded.0, mode := NormalMode, taskForm := InitialTaskForm()), calls, false)
  }

  /** Key handling in `taskCreationMode`. Keys other than "esc", "tab"
      and "enter" go to the active text input: it takes the widget's
      result `env.typed`, and nothing else changes. */
  function CreationKey(m: Model, k: Key, env: Env): (r: Step)
    requires m.mode == TaskCreationMode
    ensures !r.quit
    ensures r.model.cursor == m.cursor && r.model.selected == m.selected && r.model.viewport == m.viewport
    ensures r.model.currentDate == m.currentDate && r.model.currentTimeSlot == m.currentTimeSlot
    ensures r.model.mode == NormalMode ==> k == Esc || k == Enter
    ensures r.calls != [] ==> k == Enter
    ensures k !in {Esc, Tab, Enter} ==> r.calls == [] && r.model.(taskForm := m.taskForm) == m
    ensures k !in {Esc, Tab, Enter} && m.taskForm.activeInput == 0 ==>
      r.model.taskForm == m.taskForm.(title := env.typed)
    ensures k !in {Esc, Tab, Enter} && m.taskForm.activeInput != 0 ==>
      r.model.taskForm == m.taskForm.(duration := env.typed)
  {
    if k == Esc then
      Step(m.(mode := NormalMode, taskForm := m.taskForm.(err := "")), [], false)
    else if k == Tab then
      Step(m.(taskForm := m.taskForm.(activeInput := GoRem(m.taskForm.activeInput + 1, 2))), [], false)
    else if k == Enter then Submit(m, env)
    else Step(m.(taskForm := Typed(m.taskForm, env.typed)), [], false)
  }

  /** One event of the program's loop. A tick refreshes the now-slot from
      the clock; a key is handled according to the mode. */
  function Update(m: Model, msg: Msg, env: Env): (r: Step)
    ensures r.quit ==> r.model == m && r.calls == []
    ensures msg.TickMsg? ==> r.model.(currentTimeSlot := m.currentTimeSlot) == m && r.calls == [] && !r.quit
    ensures msg.TickMsg? ==> r.model.currentTimeSlot == NowSlot(env)
  {
    match msg
    case TickMsg =>
      var slot := NowSlot(env);
      if slot != m.currentTimeSlot then Step(m.(currentTimeSlot := slot), [], false)
      else Step(m, [], false)
    case KeyMsg(k) =>
      match m.mode
      case NormalMode => NormalKey(m, k, env)
      case TaskCreationMode => CreationKey(m, k, env)
  }

  /** The grid of a date: 48 slots at the date's half hours, each task
      stamped with the start of its slot. */
  predicate GridOf(slots: seq<TimeSlot>, date: int) {
    && |slots| == SlotsPerDay
    && (forall i :: 0 <= i < |slots| ==> ClockAt(slots[i].startTime) == Clock(date, i / 2, SlotMinutes * (i % 2)))
    && (forall i, j :: 0 <= i < |slots| && 0 <= j < |slots[i].tasks| ==> slots[i].tasks[j].time == slots[i].startTime)
  }

  /** The invariant every transition keeps. */
  predicate Valid(m: Model) {
    && GridOf(m.timeSlots, m.currentDate)
    && 0 <= m.currentTimeSlot < SlotsPerDay
    && 0 <= m.cursor < SlotsPerDay
    && m.viewport.height == WindowHeight
    && Spans(m.viewport, SlotsPerDay)
    && Shows(m.viewport, m.cursor)
    && (m.mode == TaskCreationMode ==> m.selected == m.cursor)
    && 0 <= m.taskForm.activeInput <= 1
  }
}

=== FILE: slots.dfy ===
/** The slot grid: one day cut into 48 half-hour slots, the mapping from a
    time of day to its slot, and the loading of stored task rows into the
    grid (main.go: timeToSlotIndex, generateTimeSlots, loadTasks). */
module Slots {
  import opened Results

  const SlotsPerDay: int := 48
  const SlotMinutes: int := 30
  const MinutesPerDay: int := 1440

  type Hour = h: int | 0 <= h < 24
  type Minute = m: int | 0 <= m < 60

  /** A wall-clock reading: an abstract day number (consecutive days differ
      by one) and a local time of day. Time zones and daylight saving are
      not modelled, so every day has exactly `MinutesPerDay` minutes. */
  datatype Clock = Clock(day: int, hour: Hour, minute: Minute)

  /** An instant, as whole minutes since midnight of day 0. */
  type Instant = int

  function Midnight(day: int): Instant {
    day * MinutesPerDay
  }

  /** The wall-clock reading at an instant. */
  function ClockAt(t: Instant): Clock {
    Clock(t / MinutesPerDay, (t % MinutesPerDay) / 60, t % 60)
  }

  /** A task as shown in the grid; `time` is the start of its slot. */
  datatype Task = Task(time: Instant, duration: int, title: string, done: bool)

  datatype TimeSlot = TimeSlot(startTime: Instant, tasks: seq<Task>)

  /** A row as the store returns it for one date. The row's date and
      creation time are not used by the grid and are not modelled. */
  datatype Row = Row(id: int, timeSlot: int, title: string, duration: int, done: bool)

  /** The half-hour slot holding a time of day: the result is the slot
      whose 30 minutes contain the time. */
  function TimeToSlotIndex(hour: Hour, minute: Minute): (r: int)
    ensures 0 <= r < SlotsPerDay
    ensures r * SlotMinutes <= hour * 60 + minute < r * SlotMinutes + SlotMinutes
  {
    (hour * 60 + minute) / SlotMinutes
  }

  /** Later times of day never map to earlier slots. */
  lemma SlotIndexMonotone(h1: Hour, m1: Minute, h2: Hour, m2: Minute)
    requires h1 < h2 || (h1 == h2 && m1 <= m2)
    ensures TimeToSlotIndex(h1, m1) <= TimeToSlotIndex(h2, m2)
  {
  }

  /** The grid for a date: 48 empty slots, slot `i` starting at the
      half hour `i` of that date. */
  function GenerateTimeSlots(date: int): (r: seq<TimeSlot>)
    ensures |r| == SlotsPerDay
    ensures forall i :: 0 <= i < |r| ==> r[i].tasks == []
    ensures forall i :: 0 <= i < |r| ==> ClockAt(r[i].startTime) == Clock(date, i / 2, SlotMinutes * (i % 2))
  {
    var r := seq(SlotsPerDay, i => TimeSlot(Midnight(date) + SlotMinutes * i, []));
    assert forall i :: 0 <= i < |r| ==> ClockAt(r[i].startTime) == Clock(date, i / 2, SlotMinutes * (i % 2)) by {
      forall i | 0 <= i < |r|
        ensures ClockAt(r[i].startTime) == Clock(date, i / 2, SlotMinutes * (i % 2))
      {
        StartOfSlot(date, i);
      }
    }
    r
  }

  lemma StartOfSlot(date: int, i: int)
    requires 0 <= i < SlotsPerDay
    ensures ClockAt(Midnight(date) + SlotMinutes * i) == Clock(date, i / 2, SlotMinutes * (i % 2))
  {
    var h, b := i / 2, i % 2;
    DivByDay(date, 30 * i);
    DivByHour(h, 30 * b);
    DivByHour(date * 24 + h, 30 * b);
  }

  lemma DivByDay(q: int, r: int)
    requires 0 <= r < MinutesPerDay
    ensures (q * MinutesPerDay + r) / MinutesPerDay == q && (q * MinutesPerDay + r) % MinutesPerDay == r
  {
  }

  lemma DivByHour(q: int, r: int)
    requires 0 <= r < 60
    ensures (q * 60 + r) / 60 == q && (q * 60 + r) % 60 == r
  {
  }

  /** The slot a grid slot's own start time maps back to is that slot, and
      the last slot ends at the next day's midnight. */
  lemma SlotStartsMapBack(date: int, i: int)
    requires 0 <= i < SlotsPerDay
    ensures var c := ClockAt(GenerateTimeSlots(date)[i].startTime);
      c.day == date && TimeToSlotIndex(c.hour, c.minute) == i
    ensures GenerateTimeSlots(date)[SlotsPerDay - 1].startTime + SlotMinutes == Midnight(date + 1)
  {
  }

  /** A stored row as the task shown in a slot starting at `start`. */
  function ToTask(row: Row, start: Instant): Task {
    Task(start, row.duration, row.title, row.done)
  }

  /** Reference definition of a loaded slot: the rows whose index is `i`,
      in the order the store returned them, as tasks starting at `start`. */
  function TasksFor(rows: seq<Row>, i: int, start: Instant): (r: seq<Task>)
    ensures forall j :: 0 <= j < |r| ==> r[j].time == start
  {
    if rows == [] then []
    else (if rows[0].timeSlot == i then [ToTask(rows[0], start)] else []) + TasksFor(rows[1..], i, start)
  }

  /** Appends one row to the slot its index names; a row whose index is
      outside the grid is dropped. */
  function AppendRow(slots: seq<TimeSlot>, row: Row): (r: seq<TimeSlot>)
    ensures |r| == |slots|
    ensures forall i :: 0 <= i < |r| ==>
      r[i].startTime == slots[i].startTime &&
      r[i].tasks == slots[i].tasks + (if row.timeSlot == i then [ToTask(row, slots[i].startTime)] else [])
  {
    if 0 <= row.timeSlot < |slots| then
      var s := slots[row.timeSlot];
      slots[row.timeSlot := s.(tasks := s.tasks + [ToTask(row, s.startTime)])]
    else
      slots
  }

  /** The loop over the fetched rows, appending each in turn. */
  function AppendRows(slots: seq<TimeSlot>, rows: seq<Row>): (r: seq<TimeSlot>)
    ensures |r| == |slots|
    ensures forall i :: 0 <= i < |r| ==>
      r[i].startTime == slots[i].startTime &&
      r[i].tasks == slots[i].tasks + TasksFor(rows, i, slots[i].startTime)
    decreases |rows|
  {
    if rows == [] then slots
    else
      var next := AppendRow(slots, rows[0]);
      var r := AppendRows(next, rows[1..]);
      AppendRowsStep(slots, rows, next, r);
      r
  }

  /** One turn of the loop: appending the first row, then the rest, gives
      each slot the first row (when it belongs there) and then the rest. */
  lemma AppendRowsStep(slots: seq<TimeSlot>, rows: seq<Row>, next: seq<TimeSlot>, r: seq<TimeSlot>)
    requires rows != [] && next == AppendRow(slots, rows[0])
    requires |r| == |next|
    requires forall i :: 0 <= i < |r| ==>
      r[i].startTime == next[i].startTime &&
      r[i].tasks == next[i].tasks + TasksFor(rows[1..], i, next[i].startTime)
    ensures forall i :: 0 <= i < |r| ==>
      r[i].startTime == slots[i].startTime &&
      r[i].tasks == slots[i].tasks + TasksFor(rows, i, slots[i].startTime)
  {
    forall i | 0 <= i < |r|
      ensures r[i].tasks == slots[i].tasks + TasksFor(rows, i, slots[i].startTime)
    {
      var start := slots[i].startTime;
      var head := if rows[0].timeSlot == i then [ToTask(rows[0], start)] else [];
      var rest := TasksFor(rows[1..], i, start);
      assert next[i].startTime == start && next[i].tasks == slots[i].tasks + head;
      assert r[i].tasks == next[i].tasks + rest;
      assert TasksFor(rows, i, start) == head + rest;
      ConcatAssoc(slots[i].tasks, head, rest);
    }
  }

  lemma ConcatAssoc<T>(a: seq<T>, b: seq<T>, c: seq<T>)
    ensures (a + b) + c == a + (b + c)
  {
  }

  /** Every slot keeps its start time and loses its tasks. */
  function ClearTasks(slots: seq<TimeSlot>): (r: seq<TimeSlot>)
    ensures |r| == |slots|
    ensures forall i :: 0 <= i < |r| ==> r[i].startTime == slots[i].startTime && r[i].tasks == []
  {
    seq(|slots|, i requires 0 <= i < |slots| => slots[i].(tasks := []))
  }

  /** Refills the grid from the store's answer. On a store error the grid
      is returned untouched together with the error; otherwise every slot
      holds exactly the fetched rows with its index, in fetched order. */
  function LoadTasks(slots: seq<TimeSlot>, fetched: Result<seq<Row>>): (r: (seq<TimeSlot>, Option<string>))
    ensures fetched.Err? ==> r == (slots, Some(fetched.error))
    ensures fetched.Ok? ==> r.1 == None && |r.0| == |slots|
    ensures fetched.Ok? ==> forall i :: 0 <= i < |r.0| ==>
      r.0[i] == TimeSlot(slots[i].startTime, TasksFor(fetched.value, i, slots[i].startTime))
  {
    match fetched
    case Err(e) => (slots, Some(e))
    case Ok(rows) => (AppendRows(ClearTasks(slots), rows), None)
  }

  /** The rows whose index lies inside a grid of `n` slots. */
  function InRange(rows: seq<Row>, n: int): (r: seq<Row>)
    ensures forall k :: 0 <= k < |r| ==> 0 <= r[k].timeSlot < n
  {
    if rows == [] then []
    else (if 0 <= rows[0].timeSlot < n then [rows[0]] else []) + InRange(rows[1..], n)
  }

  lemma {:induction false} TasksForInRange(rows: seq<Row>, n: int, i: int, start: Instant)
    requires 0 <= i < n
    ensures TasksFor(InRange(rows, n), i, start) == TasksFor(rows, i, start)
    decreases |rows|
  {
    if rows != [] {
      TasksForInRange(rows[1..], n, i, start);
      TasksForConcat(if 0 <= rows[0].timeSlot < n then [rows[0]] else [], InRange(rows[1..], n), i, start);
    }
  }

  lemma {:induction false} TasksForConcat(a: seq<Row>, b: seq<Row>, i: int, start: Instant)
    ensures TasksFor(a + b, i, start) == TasksFor(a, i, start) + TasksFor(b, i, start)
    decreases |a|
  {
    if a != [] {
      assert (a + b)[1..] == a[1..] + b;
      TasksForConcat(a[1..], b, i, start);
    } else {
      assert a + b == b;
    }
  }

  /** Rows with an out-of-range index are silently dropped: loading them
      gives the same grid as loading only the in-range rows. */
  lemma OutOfRangeRowsDropped(slots: seq<TimeSlot>, rows: seq<Row>)
    ensures LoadTasks(slots, Ok(rows)) == LoadTasks(slots, Ok(InRange(rows, |slots|)))
  {
    var a, b := LoadTasks(slots, Ok(rows)).0, LoadTasks(slots, Ok(InRange(rows, |slots|))).0;
    forall i | 0 <= i < |slots|
      ensures a[i] == b[i]
    {
      TasksForInRange(rows, |slots|, i, slots[i].startTime);
    }
    assert a == b;
  }
}

=== FILE: viewport.dfy ===
/** The visible window over the slot grid (main.go: the `viewport` record,
    `updateViewport`, and the recentring done by `jumpToCurrentTime` and
    the "T" key). */
module Viewports {

  /** Slots `top..bottom` (both inclusive) are on screen; `height` is the
      number of slots the window is meant to show. */
  datatype Viewport = Viewport(top: int, bottom: int, height: int)

  /** The window lies inside a grid of `n` slots and shows exactly
      `height` of them. */
  predicate Spans(v: Viewport, n: int) {
    0 <= v.top && v.bottom <= n - 1 && v.bottom - v.top + 1 == v.height
  }

  /** Slot `c` is on screen. */
  predicate Shows(v: Viewport, c: int) {
    v.top <= c <= v.bottom
  }

  /** Slides the window just far enough to bring the cursor on screen,
      then pulls it back inside a grid of `n` slots. Whenever the cursor is
      in the grid and the window has a height between 1 and `n` that
      matches its bounds, the result spans the grid, shows the cursor and
      keeps its height; a window already showing the cursor is not moved. */
  function UpdateViewport(cursor: int, v: Viewport, n: int): (r: Viewport)
    ensures r.height == v.height
    ensures 0 <= cursor < n && 1 <= v.height <= n && v.bottom - v.top + 1 == v.height ==>
      Spans(r, n) && Shows(r, cursor)
    ensures Spans(v, n) && Shows(v, cursor) ==> r == v
    // A cursor that left a window lying in the grid drags the nearer edge
    // onto itself, keeping the window's size.
    ensures Spans(v, n) && 1 <= v.height && 0 <= cursor < n && cursor > v.bottom ==>
      r == Viewport(v.top + (cursor - v.bottom), cursor, v.height)
    ensures Spans(v, n) && 1 <= v.height && 0 <= cursor < n && cursor < v.top ==>
      r == Viewport(cursor, v.bottom - (v.top - cursor), v.height)
  {
    var v1 := if cursor > v.bottom then
        var diff := cursor - v.bottom;
        v.(top := v.top + diff, bottom := v.bottom + diff)
      else v;
    var v2 := if cursor < v1.top then
        var diff := v1.top - cursor;
        v1.(top := v1.top - diff, bottom := v1.bottom - diff)
      else v1;
    var v3 := if v2.bottom >= n then
        v2.(bottom := n - 1, top := n - 1 - v2.height + 1)
      else v2;
    if v3.top < 0 then
      v3.(top := 0, bottom := 0 + v3.height - 1)
    else v3
  }

  /** Puts `slot` on screen with three slots above it and two below,
      then pulls the six-slot window back inside a grid of `n` slots.
      For a slot in a grid of at least six slots, the result shows the
      slot, lies in the grid and covers six slots; away from the grid's
      edges the slot sits exactly three below the top. The `height`
      field is left as it was. */
  function CentreOn(slot: int, v: Viewport, n: int): (r: Viewport)
    ensures r.height == v.height
    ensures 0 <= slot < n && 6 <= n ==>
      0 <= r.top && r.bottom <= n - 1 && r.bottom - r.top + 1 == 6 && Shows(r, slot)
    ensures 3 <= slot && slot + 2 < n ==> r.top == slot - 3 && r.bottom == slot + 2
  {
    var v1 := v.(top := slot - 3, bottom := slot + 2);
    var v2 := if v1.top < 0 then v1.(top := 0, bottom := 5) else v1;
    if v2.bottom >= n then
      v2.(bottom := n - 1, top := n - 1 - 5)
    else v2
  }
}
